=== FILE: README.md ===
# Duck Party, modelled in Dafny

Duck Party is a p5.js sketch. A flock of ducks wanders the canvas. A duck that
bumps into an edge sets off a burst of confetti and bounces in a random
direction. The keyboard starts and stops the flock, resets it, adds ducks and
cycles the hats, duck colours and grass. A click on a duck makes it quack.

This project models the sketch's state and every transition on it as pure
functions over one immutable `Scene`:

- `Geometry`: points, the canvas, and p5's `constrain`, `lerp` and `dist`, over exact reals.
- `Colors`: the four duck colour schemes and `getDuckColors`, plus the eight confetti hues.
- `Ducks`: the duck record, `addDuck`, `parseNewDirection` and `updateDuck` with its bounce policy.
- `Confetti`: the confetti piece, its constructor, `update` and `isDead`, the party burst, and the
  reverse loop with `splice` in `draw`, written as a method.
- `Scene`: the scene record, `setup`, every `keyPressed` command, one `draw` frame without the
  drawing (`Tock`), and `mousePressed` (`Click`).

Randomness is passed in as data. A `Draws` record gives a spawn spot per new
duck, a heading per duck, and the draws for each confetti piece of each burst.
A `Heading` carries an angle together with its cosine and sine. Where a
property depends on the drawn values, a precondition states their range:
`SpawnSpot` for a new duck's position and `IsUnit` for a heading.

The scene invariant `Scene.Consistent` says four things. The hat, colour and
grass indices are in range. Every duck wears the scene's hat and colour. Every
duck has speed 2. Every duck has the size fixed at start-up. Every key press
preserves this invariant, and so does every frame.

## Model

| member | source | states |
|---|---|---|
| Geometry.Clamp | sketch.js:95-97 | `constrain` lands inside the bounds when they are ordered, leaves a value already inside unchanged, and returns the lower bound when the bounds cross |
| Geometry.Lerp | sketch.js:84 | easing closes exactly the fraction `amt` of the gap to the target, and stays between start and target for `amt` in [0, 1] |
| Geometry.WithinIsDistance | sketch.js:512-513 | the square-free hit test agrees with `dist(...) < size/2` for the true distance, including non-positive radii |
| Colors.DuckColors | sketch.js:226-233 | indices 0..3 select their scheme from the table; every other index falls back to the white goose |
| Colors.DuckColorsDistinct | sketch.js:15-20 | the four reachable colour indices give four different schemes |
| Ducks.NewDuck | sketch.js:35-49 | a new duck is at rest at the drawn spot, faces rotation 0 with target 0, has speed 2 and the start-up duck size, and wears the given hat and colour |
| Ducks.NewDuckInBounds | sketch.js:37-38 | a spot drawn from the spawn range puts the whole body on the canvas, so there is no edge violation |
| Ducks.NewDirection | sketch.js:101-106 | the velocity becomes (cos·speed, sin·speed) of the drawn angle and the target rotation becomes the angle; nothing else changes |
| Ducks.NewDirectionKeepsSpeed | sketch.js:102-104 | along a unit heading the new velocity's magnitude is the duck's speed |
| Ducks.InBoundsIffNoViolation | sketch.js:87-97 | the strict edge tests fail exactly when the position lies in the clamp range |
| Ducks.UpdateDuck | sketch.js:77-99 | stopped: nothing changes and no party. Moving: each coordinate ends as `constrain` of the moved coordinate to [r, size − r], with r the duck's radius, so the duck is in bounds when it fits the canvas. A party happens iff the moved position crosses an edge (`Crosses`), and then the velocity and target come from the heading. Otherwise the position is old plus velocity and the velocity is kept. Rotation closes 5% of its gap. Cosmetics, speed and size are kept |
| Ducks.RestingDuckStaysQuiet | sketch.js:78-97 | a duck on the canvas with zero velocity never sets off a party and does not move |
| Ducks.ExampleFreeFlight | sketch.js:80-97 | on an 800x600 canvas, a duck at (400,300) with velocity (0,-10) moves to y = 290 with no party |
| Ducks.ExampleTopEdge | sketch.js:80-97 | a duck at (400,24) with velocity (0,-10) sets off a party and is clamped to y = 50 |
| Ducks.ExampleRepeatedParty | sketch.js:88-106 | a bounce heading straight up, with any angle, makes the next frame set off another party |
| Confetti.Spawn | sketch.js:408-429 | a new piece starts at the given point with full life 255 and the drawn velocity |
| Confetti.Tick | sketch.js:431-437 | an update takes exactly 4 life, adds gravity 0.1 to the vertical speed, and moves by the speed from before the update |
| Confetti.TicksClosedForm | sketch.js:431-437 | after k updates: life is down by 4k, x by k·vx, vy up by k·0.1, rotation up by k·spin; size and hue are kept |
| Confetti.LifeSpan | sketch.js:428-436 | a piece with life 255 has faded out after k updates iff k >= 64 |
| Confetti.DeadAfterExactly64 | sketch.js:450-452 | a new piece still on the canvas is dead after k updates iff k >= 64 |
| Confetti.Burst | sketch.js:370-375 | a party makes exactly 30 pieces; piece j is the constructor's piece at the given centre, full life, made from the j-th draw |
| Confetti.TickAll | sketch.js:65-67 | every piece is updated exactly once, in place |
| Confetti.AliveMembers | sketch.js:68-70 | a piece is kept iff it is in the list and is not dead |
| Confetti.SurvivorsCons | sketch.js:65-71 | the survivors of a list headed by p are the updated p, if it is still alive, followed by the survivors of the rest |
| Confetti.AliveAppend | sketch.js:65-71 | removing the dead distributes over concatenation, so survivors keep their relative order |
| Confetti.AliveIdempotent | sketch.js:68-70 | removing the dead twice is removing them once |
| Confetti.SurvivorsAppend | sketch.js:65-71 | update-then-filter of a concatenation is the concatenation of the parts' results |
| Confetti.UpdateConfetti | sketch.js:65-71 | the reverse loop with `splice` returns exactly `filter(not dead, map(update, confetti))` |
| Scene.SetupCanvas | sketch.js:26-27 | the duck size is one eighth of the window width |
| Scene.Initial | sketch.js:25-33 | the starting scene holds exactly `addDuck`'s duck at the drawn spot, has hat, colour and grass 0 (the initial values at sketch.js:5-7), no confetti, is stopped, and is consistent |
| Scene.InitialDuckInBounds | sketch.js:27-38 | in a window at least a quarter as tall as it is wide, the first duck starts on the canvas |
| Scene.AddDucks | sketch.js:474-479 | exactly n ducks are appended, the j-th being `addDuck`'s duck at the j-th drawn spot in the scene's cosmetics; existing ducks and everything else are unchanged; it keeps the scene invariant |
| Scene.Reset | sketch.js:467-471 | space leaves exactly `addDuck`'s duck at the first drawn spot, in the scene's cosmetics, and stops the flock; confetti and cosmetics are unchanged; it keeps the scene invariant |
| Scene.Toggle | sketch.js:457-464 | enter flips the motion flag. Only when the flock starts does every duck take its drawn heading, exactly as `parseNewDirection` sets it, keeping its position. When it stops, the ducks are unchanged. It keeps the scene invariant |
| Scene.Next | sketch.js:483 | the cycle index stays below its modulus, advances by one, and wraps to 0 after the last |
| Scene.CycleHat | sketch.js:482-488 | `h` advances the hat modulo 4 and overwrites the hat of every duck; nothing else changes; it keeps the scene invariant |
| Scene.CycleColor | sketch.js:490-496 | `d` advances the colour modulo 4 and overwrites the colour of every duck; nothing else changes; it keeps the scene invariant |
| Scene.CycleGrass | sketch.js:498-501 | `g` advances the grass modulo 5 and changes nothing else; it keeps the scene invariant |
| Scene.Party | sketch.js:503-505 | `p` appends exactly 30 full-life pieces at the canvas centre after the existing ones; it keeps the scene invariant |
| Scene.KeyPressed | sketch.js:456-507 | every key runs its own command: enter `Toggle`, space `Reset`, a digit n `AddDucks` with n, `h`/`H` `CycleHat`, `d`/`D` `CycleColor`, `g`/`G` `CycleGrass`, and `p`/`P` `Party` with burst 0's draws. A party sound is requested iff the key is `p` or `P`. The key is claimed iff it has a command, and an unclaimed key changes nothing. Every key press keeps the scene invariant |
| Scene.DigitAddsDucks | sketch.js:474-479 | the digit key n adds exactly n ducks and keeps the existing ducks, motion flag and confetti |
| Scene.HatCycleReturns | sketch.js:482-488 | four presses of `h` restore the scene exactly |
| Scene.ColorCycleReturns | sketch.js:490-496 | four presses of `d` restore the scene exactly |
| Scene.GrassCycleReturns | sketch.js:498-501 | five presses of `g` restore the scene exactly |
| Scene.PartyBursts | sketch.js:58-62 | the ducks' parties spawn 30 pieces each, all at the canvas centre with full life (sketch.js:373, 428); a stopped flock has no party |
| Scene.PartyIndicesTail | sketch.js:59-60 | the ducks that cross an edge are the first duck, if it does, together with those among the rest, numbered as before |
| Scene.NoPartyIffNoCrossing | sketch.js:86-90 | a frame has no party exactly when no duck's next position crosses an edge |
| Scene.PartyBurstsCount | sketch.js:59-60 | the number of parties is exactly the number of ducks whose step crosses an edge (sketch.js:88-90 calls `triggerParty` once for each) |
| Scene.StepDucks | sketch.js:59-60 | duck i ends as its own step with heading i leaves it; stopped: all unchanged; moving: all in bounds when every duck fits the canvas |
| Scene.Tock | sketch.js:51-75 | the frame keeps the number of ducks and the scene's flags, and duck i ends as its own step leaves it. The number of party sounds is the number of bursts. Stopped: ducks unchanged and no party. Moving: every duck that fits the canvas ends in bounds. The confetti is the survivors of the old pieces followed by the survivors of this frame's bursts, so at most the old count plus 30 per party |
| Scene.TockPartyCount | sketch.js:59-60 | a frame requests one party sound per duck whose step crosses an edge, and no more |
| Scene.TockPreservesConsistent | sketch.js:58-62 | a frame keeps the scene invariant |
| Scene.Click | sketch.js:509-518 | the click selects the first duck in list order whose centre is closer than half its size, and none when no duck qualifies |

## Left out

- Drawing: `drawDuck`, `drawHat`, `drawBeak`, `drawGrass` and its helpers, `drawLegend`,
  `Confetti.display` and `background` only produce pixels. The confetti palette's RGB values matter
  only to drawing, so a piece's colour is just one of the eight `Hue` names.
- Sound: `playPartySound` and `playQuackSound` drive oscillators and timers. The model keeps only the
  request: `Reaction.party`, `Frame.parties`, and the `quacked` result of `Click`.
- Random numbers, `cos` and `sin` are inputs (`Draws`, `Heading`). The model does not say they are
  uniform. A heading is unit length only where a lemma requires `IsUnit`.
- Floating point: coordinates, gravity 0.1 and the easing factor 0.05 are exact reals. Nothing is
  claimed about double rounding.
- `setup`'s canvas creation and `windowResized`: the canvas is a parameter. A resize changes width and
  height but not the duck size, and the model allows exactly that.
- Keys other than enter and single characters (shift, arrows) are the `Special` key. It matches no
  branch of `keyPressed`, as in the sketch.
- A bounce is not guaranteed to point back inward: `parseNewDirection` draws any angle. The model
  follows the code, so one crossing can set off a party on several frames in a row.
  `Ducks.ExampleRepeatedParty` shows two in a row.

=== FILE: colors.dfy ===
/** The fixed colour tables of the sketch: the four duck colour schemes and the confetti palette. */
module Colors {

  /** An opaque colour, each channel in 0..255. */
  datatype Rgb = Rgb(r: int, g: int, b: int)

  /** The colours one duck is drawn with. */
  datatype Scheme = Scheme(body: Rgb, head: Rgb, eye: Rgb, beak: Rgb)

  const WhiteGoose := Scheme(Rgb(240, 245, 250), Rgb(240, 245, 250), Rgb(20, 20, 20), Rgb(255, 140, 0))
  const CanadianGoose := Scheme(Rgb(40, 40, 40), Rgb(40, 40, 40), Rgb(255, 255, 255), Rgb(255, 100, 0))
  const YellowDuck := Scheme(Rgb(255, 220, 0), Rgb(255, 220, 0), Rgb(20, 20, 20), Rgb(255, 100, 0))
  const Mallard := Scheme(Rgb(100, 140, 80), Rgb(20, 80, 60), Rgb(255, 255, 255), Rgb(255, 140, 0))

  /** The schemes in the order the duck colour index names them. */
  const Schemes: seq<Scheme> := [WhiteGoose, CanadianGoose, YellowDuck, Mallard]

  /** The scheme for a duck colour index; any index outside the table falls back to the white goose. */
  function DuckColors(colorType: int): (s: Scheme)
    ensures 0 <= colorType < |Schemes| ==> s == Schemes[colorType]
    ensures !(0 <= colorType < |Schemes|) ==> s == WhiteGoose
  {
    if colorType == 0 then WhiteGoose
    else if colorType == 1 then CanadianGoose
    else if colorType == 2 then YellowDuck
    else if colorType == 3 then Mallard
    else WhiteGoose
  }

  /** Every index the colour cycle can reach shows a different scheme. */
  lemma DuckColorsDistinct(a: int, b: int)
    requires 0 <= a < |Schemes| && 0 <= b < |Schemes|
    ensures DuckColors(a) == DuckColors(b) <==> a == b
  {
  }

  /** The eight confetti colours; a piece keeps the one it was given when created. */
  datatype Hue = Red | Orange | Yellow | Green | Blue | Indigo | Violet | Pink
}

=== FILE: confetti.dfy ===
/**
 * The confetti particle system: bursts of pieces that drift, fall under
 * gravity and fade out, and the per-frame update that removes the dead ones.
 */
module Confetti {
  import opened Geometry
  import opened Colors

  /** A confetti piece. `spin` is the rotation added each frame; `life` is the fading counter. */
  datatype Piece = Piece(
    x: real, y: real,
    vx: real, vy: real,
    width: real, height: real,
    rotation: real, spin: real,
    hue: Hue,
    life: int)

  /** The random choices made when a piece is created. */
  datatype PieceDraw = PieceDraw(
    vx: real, vy: real,
    width: real, height: real,
    rotation: real, spin: real,
    hue: Hue)

  /** The life of a new piece. */
  const FullLife: int := 255

  /** The life lost every frame. */
  const Fade: int := 4

  /** The downward acceleration, in pixels per frame per frame. */
  const Gravity: real := 0.1

  /** The number of pieces in one party burst. */
  const BurstSize: nat := 30

  /** The `Confetti` constructor: a piece at `at` with full life and the drawn motion. */
  function Spawn(at: Point, d: PieceDraw): (p: Piece)
    ensures p.life == FullLife
    ensures p.x == at.x && p.y == at.y && p.vx == d.vx && p.vy == d.vy
  {
    Piece(at.x, at.y, d.vx, d.vy, d.width, d.height, d.rotation, d.spin, d.hue, FullLife)
  }

  /** `Confetti.update`: move, then fall faster, spin, and fade. */
  function Tick(p: Piece): (q: Piece)
    ensures q.life == p.life - Fade
    ensures q.vy == p.vy + Gravity
    ensures q.y == p.y + p.vy
  {
    p.(x := p.x + p.vx, y := p.y + p.vy, vy := p.vy + Gravity,
       rotation := p.rotation + p.spin, life := p.life - Fade)
  }

  /** `Confetti.isDead`: fallen below the canvas, or faded out. */
  predicate IsDead(p: Piece, canvasHeight: real)
  {
    p.y > canvasHeight || p.life <= 0
  }

  /** `k` successive updates of one piece. */
  function Ticks(p: Piece, k: nat): Piece
  {
    if k == 0 then p else Tick(Ticks(p, k - 1))
  }

  /** After `k` updates: life, horizontal position, vertical speed and rotation in closed form. */
  lemma {:induction false} TicksClosedForm(p: Piece, k: nat)
    ensures Ticks(p, k).life == p.life - k * Fade
    ensures Ticks(p, k).x == p.x + (k as real) * p.vx
    ensures Ticks(p, k).vy == p.vy + (k as real) * Gravity
    ensures Ticks(p, k).rotation == p.rotation + (k as real) * p.spin
    ensures Ticks(p, k).vx == p.vx && Ticks(p, k).spin == p.spin
    ensures Ticks(p, k).hue == p.hue && Ticks(p, k).width == p.width && Ticks(p, k).height == p.height
  {
    if k > 0 {
      var q := Ticks(p, k - 1);
      TicksClosedForm(p, k - 1);
      assert Ticks(p, k) == Tick(q);
      assert ((k - 1) as real) * p.vx + p.vx == (k as real) * p.vx;
      assert ((k - 1) as real) * p.spin + p.spin == (k as real) * p.spin;
      assert ((k - 1) as real) * Gravity + Gravity == (k as real) * Gravity;
    }
  }

  /** A new piece fades out on its 64th update and not before. */
  lemma LifeSpan(p: Piece, k: nat)
    requires p.life == FullLife
    ensures Ticks(p, k).life <= 0 <==> k >= 64
  {
    TicksClosedForm(p, k);
  }

  /** A new piece that stays on the canvas is dead after exactly 64 updates. */
  lemma DeadAfterExactly64(p: Piece, k: nat, canvasHeight: real)
    requires p.life == FullLife
    requires Ticks(p, k).y <= canvasHeight
    ensures IsDead(Ticks(p, k), canvasHeight) <==> k >= 64
  {
    LifeSpan(p, k);
  }

  /** `triggerParty`'s confetti: 30 new pieces at `at`, the `j`-th made from `draws(j)`. */
  function Burst(at: Point, draws: nat -> PieceDraw): (b: seq<Piece>)
    ensures |b| == BurstSize
    ensures forall j :: 0 <= j < |b| ==> b[j].life == FullLife && b[j].x == at.x && b[j].y == at.y
    ensures forall j :: 0 <= j < |b| ==> b[j] == Spawn(at, draws(j))
  {
    var b := seq(BurstSize, j requires 0 <= j < BurstSize => Spawn(at, draws(j)));
    assert forall j :: 0 <= j < |b| ==> b[j] == Spawn(at, draws(j));
    b
  }

  /** Every piece, updated once. */
  function TickAll(ps: seq<Piece>): (qs: seq<Piece>)
    ensures |qs| == |ps|
    ensures forall i :: 0 <= i < |ps| ==> qs[i] == Tick(ps[i])
  {
    seq(|ps|, i requires 0 <= i < |ps| => Tick(ps[i]))
  }

  /** The pieces that are not dead, in their original order. */
  function Alive(qs: seq<Piece>, canvasHeight: real): (r: seq<Piece>)
    ensures |r| <= |qs|
  {
    if qs == [] then []
    else (if IsDead(qs[0], canvasHeight) then [] else [qs[0]]) + Alive(qs[1..], canvasHeight)
  }

  /** Exactly the pieces that are not dead are kept. */
  lemma {:induction false} AliveMembers(qs: seq<Piece>, canvasHeight: real, q: Piece)
    ensures q in Alive(qs, canvasHeight) <==> q in qs && !IsDead(q, canvasHeight)
  {
    if qs != [] {
      AliveMembers(qs[1..], canvasHeight, q);
      assert qs == [qs[0]] + qs[1..];
    }
  }

  /** What one frame leaves of the confetti: update every piece, then drop the dead. */
  function Survivors(ps: seq<Piece>, canvasHeight: real): seq<Piece>
  {
    Alive(TickAll(ps), canvasHeight)
  }

  /** Filtering distributes over concatenation, so survivors keep their relative order. */
  lemma {:induction false} AliveAppend(a: seq<Piece>, b: seq<Piece>, canvasHeight: real)
    ensures Alive(a + b, canvasHeight) == Alive(a, canvasHeight) + Alive(b, canvasHeight)
  {
    if a == [] {
      assert a + b == b;
    } else {
      assert (a + b)[1..] == a[1..] + b;
      AliveAppend(a[1..], b, canvasHeight);
    }
  }

  /** Filtering twice is filtering once. */
  lemma {:induction false} AliveIdempotent(qs: seq<Piece>, canvasHeight: real)
    ensures Alive(Alive(qs, canvasHeight), canvasHeight) == Alive(qs, canvasHeight)
  {
    if qs != [] {
      var head := if IsDead(qs[0], canvasHeight) then [] else [qs[0]];
      AliveIdempotent(qs[1..], canvasHeight);
      AliveAppend(head, Alive(qs[1..], canvasHeight), canvasHeight);
    }
  }

  /** Survivors of a concatenation: each part is updated and filtered on its own, in order. */
  lemma SurvivorsAppend(a: seq<Piece>, b: seq<Piece>, canvasHeight: real)
    ensures Survivors(a + b, canvasHeight) == Survivors(a, canvasHeight) + Survivors(b, canvasHeight)
  {
    assert TickAll(a + b) == TickAll(a) + TickAll(b);
    AliveAppend(TickAll(a), TickAll(b), canvasHeight);
  }

  /** Survivors of a list headed by `p`: the updated `p` if it is still alive, then the rest's survivors. */
  lemma SurvivorsCons(p: Piece, ps: seq<Piece>, canvasHeight: real)
    ensures Survivors([p] + ps, canvasHeight) ==
      (if IsDead(Tick(p), canvasHeight) then [] else [Tick(p)]) + Survivors(ps, canvasHeight)
  {
    SurvivorsAppend([p], ps, canvasHeight);
    assert TickAll([p]) == [Tick(p)];
    assert [Tick(p)][1..] == [];
  }

  /** One pass of the confetti loop at index `i` extends the processed suffix by one piece. */
  lemma PruneStep(pieces: seq<Piece>, i: nat, kept: seq<Piece>, canvasHeight: real)
    requires i < |pieces|
    requires kept == pieces[..i + 1] + Survivors(pieces[i + 1..], canvasHeight)
    ensures var t := kept[i := Tick(kept[i])];
      (if IsDead(t[i], canvasHeight) then t[..i] + t[i + 1..] else t) ==
      pieces[..i] + Survivors(pieces[i..], canvasHeight)
  {
    var done := Survivors(pieces[i + 1..], canvasHeight);
    var t := kept[i := Tick(kept[i])];
    assert t == pieces[..i] + ([Tick(pieces[i])] + done) by {
      assert kept == pieces[..i] + ([pieces[i]] + done);
    }
    SurvivorsCons(pieces[i], pieces[i + 1..], canvasHeight);
    assert pieces[i..] == [pieces[i]] + pieces[i + 1..];
    if IsDead(t[i], canvasHeight) {
      Unsplice(pieces[..i], Tick(pieces[i]), done);
    }
  }

  /** Splicing out the element at the join of `a` and `[x] + b` leaves `a + b`. */
  lemma Unsplice<T>(a: seq<T>, x: T, b: seq<T>)
    ensures var t := a + ([x] + b); t[..|a|] + t[|a| + 1..] == a + b
  {
    var t := a + ([x] + b);
    assert t[..|a|] == a;
    assert t[|a| + 1..] == b;
  }

  /**
   * The confetti loop of `draw`: walk the list from the back, update each
   * piece, and splice it out if it is now dead. It computes exactly the
   * survivors.
   */
  method UpdateConfetti(pieces: seq<Piece>, canvasHeight: real) returns (kept: seq<Piece>)
    ensures kept == Survivors(pieces, canvasHeight)
  {
    kept := pieces;
    var i := |pieces| - 1;
    while i >= 0
      invariant -1 <= i < |pieces|
      invariant kept == pieces[..i + 1] + Survivors(pieces[i + 1..], canvasHeight)
    {
      PruneStep(pieces, i, kept, canvasHeight);
      kept := kept[i := Tick(kept[i])];
      if IsDead(kept[i], canvasHeight) {
        kept := kept[..i] + kept[i + 1..];
      }
      i := i - 1;
    }
    assert pieces[0..] == pieces;
  }
}

=== FILE: ducks.dfy ===
/**
 * One duck: how it is created, how it picks a new heading, and the per-frame
 * kinematic step with its edge-bounce policy.
 */
module Ducks {
  import opened Geometry

  /**
   * A duck. `size` is the body diameter; `hat` and `color` are the cosmetic
   * indices copied from the scene.
   */
  datatype Duck = Duck(
    x: real, y: real,
    vx: real, vy: real,
    rotation: real, targetRotation: real,
    speed: real, size: real,
    hat: int, color: int)

  /** The speed every duck is created with. */
  const InitialSpeed: real := 2.0

  /** The fraction of the remaining turn a duck makes each frame. */
  const Easing: real := 0.05

  /**
   * A heading chosen at random: the angle together with its cosine and sine,
   * which the model takes as given instead of computing.
   */
  datatype Heading = Heading(angle: real, cos: real, sin: real)

  predicate IsUnit(h: Heading)
  {
    h.cos * h.cos + h.sin * h.sin == 1.0
  }

  function Radius(d: Duck): real
  {
    d.size / 2.0
  }

  /** The whole body lies on the canvas (touching an edge is allowed). */
  predicate InBounds(d: Duck, c: Canvas)
  {
    Radius(d) <= d.x <= c.width - Radius(d) && Radius(d) <= d.y <= c.height - Radius(d)
  }

  /** The body crosses an edge, by the strict tests of the edge check. */
  predicate Violates(d: Duck, c: Canvas)
  {
    d.x - Radius(d) < 0.0 || d.x + Radius(d) > c.width ||
    d.y - Radius(d) < 0.0 || d.y + Radius(d) > c.height
  }

  /** On the canvas exactly when no edge is crossed. */
  lemma InBoundsIffNoViolation(d: Duck, c: Canvas)
    ensures InBounds(d, c) <==> !Violates(d, c)
  {
  }

  /** `v` lies between `a` and `b`, in whichever order they come; p5's `random(a, b)` swaps crossed bounds. */
  predicate Between(v: real, a: real, b: real)
  {
    Min(a, b) <= v <= Max(a, b)
  }

  /** Where `addDuck` may place a new duck: a full duck size away from every edge. */
  predicate SpawnSpot(c: Canvas, spot: Point)
  {
    Between(spot.x, c.baseDuckSize, c.width - c.baseDuckSize) &&
    Between(spot.y, c.baseDuckSize, c.height - c.baseDuckSize)
  }

  /** `addDuck`: a duck at rest at the chosen spot, facing forward, wearing the scene's cosmetics. */
  function NewDuck(c: Canvas, spot: Point, hat: int, color: int): (d: Duck)
    ensures d.vx == 0.0 && d.vy == 0.0
    ensures d.x == spot.x && d.y == spot.y
    ensures d.rotation == 0.0 && d.targetRotation == 0.0
    ensures d.speed == InitialSpeed && d.size == c.baseDuckSize
    ensures d.hat == hat && d.color == color
  {
    Duck(spot.x, spot.y, 0.0, 0.0, 0.0, 0.0, InitialSpeed, c.baseDuckSize, hat, color)
  }

  /** A new duck placed where `addDuck` may place it has its whole body on the canvas. */
  lemma NewDuckInBounds(c: Canvas, spot: Point, hat: int, color: int)
    requires 0.0 <= c.baseDuckSize
    requires 2.0 * c.baseDuckSize <= c.width && 2.0 * c.baseDuckSize <= c.height
    requires SpawnSpot(c, spot)
    ensures InBounds(NewDuck(c, spot, hat, color), c)
    ensures !Violates(NewDuck(c, spot, hat, color), c)
  {
  }

  /** `parseNewDirection`: travel at the duck's own speed along the heading, and turn towards it. */
  function NewDirection(d: Duck, h: Heading): (e: Duck)
    ensures e.targetRotation == h.angle
    ensures e.vx == h.cos * d.speed && e.vy == h.sin * d.speed
    ensures e.(vx := d.vx, vy := d.vy, targetRotation := d.targetRotation) == d
  {
    d.(vx := h.cos * d.speed, vy := h.sin * d.speed, targetRotation := h.angle)
  }

  /** Along a unit heading the new velocity has exactly the duck's speed as its magnitude. */
  lemma NewDirectionKeepsSpeed(d: Duck, h: Heading)
    requires IsUnit(h)
    ensures var e := NewDirection(d, h); e.vx * e.vx + e.vy * e.vy == d.speed * d.speed
  {
  }

  /** The edge test of `updateDuck`: the flock is moving and the duck's next position crosses an edge. */
  predicate Crosses(d: Duck, c: Canvas, moving: bool)
  {
    moving && Violates(d.(x := d.x + d.vx, y := d.y + d.vy), c)
  }

  /** The outcome of one frame for one duck: its new state, and whether it set off a party. */
  datatype Step = Step(duck: Duck, party: bool)

  /**
   * `updateDuck`: nothing happens unless the flock is moving. A moving duck
   * advances by its velocity, eases its rotation towards its target, and, if
   * its body now crosses an edge, sets off a party and takes the heading `h`;
   * either way it is then pushed back onto the canvas.
   */
  function UpdateDuck(d: Duck, c: Canvas, moving: bool, h: Heading): (s: Step)
    ensures !moving ==> s == Step(d, false)
    ensures moving && d.size <= c.width && d.size <= c.height ==> InBounds(s.duck, c)
    ensures moving ==>
      s.duck.x == Clamp(d.x + d.vx, Radius(d), c.width - Radius(d)) &&
      s.duck.y == Clamp(d.y + d.vy, Radius(d), c.height - Radius(d))
    ensures moving ==> (s.party <==> Violates(d.(x := d.x + d.vx, y := d.y + d.vy), c))
    ensures s.party == Crosses(d, c, moving)
    ensures moving && s.party ==>
      s.duck.vx == h.cos * d.speed && s.duck.vy == h.sin * d.speed && s.duck.targetRotation == h.angle
    ensures moving && !s.party ==>
      s.duck.x == d.x + d.vx && s.duck.y == d.y + d.vy &&
      s.duck.vx == d.vx && s.duck.vy == d.vy && s.duck.targetRotation == d.targetRotation
    ensures moving ==> d.targetRotation - s.duck.rotation == (1.0 - Easing) * (d.targetRotation - d.rotation)
    ensures s.duck.speed == d.speed && s.duck.size == d.size
    ensures s.duck.hat == d.hat && s.duck.color == d.color
  {
    if !moving then Step(d, false)
    else
      var moved := d.(x := d.x + d.vx, y := d.y + d.vy);
      var eased := moved.(rotation := Lerp(moved.rotation, moved.targetRotation, Easing));
      var r := Radius(eased);
      var hit := Violates(eased, c);
      var turned := if hit then NewDirection(eased, h) else eased;
      Step(turned.(x := Clamp(turned.x, r, c.width - r), y := Clamp(turned.y, r, c.height - r)), hit)
  }

  /** A duck on the canvas with zero velocity never sets off a party, frame after frame. */
  lemma RestingDuckStaysQuiet(d: Duck, c: Canvas, moving: bool, h: Heading)
    requires InBounds(d, c)
    requires d.vx == 0.0 && d.vy == 0.0
    ensures !UpdateDuck(d, c, moving, h).party
    ensures UpdateDuck(d, c, moving, h).duck.x == d.x && UpdateDuck(d, c, moving, h).duck.y == d.y
  {
  }

  /** An 800 by 600 canvas with ducks 100 across. */
  const Example: Canvas := Canvas(800.0, 600.0, 100.0)

  /** A duck in the middle drifting up by 10 just moves: no party, no clamping. */
  lemma ExampleFreeFlight(h: Heading)
    ensures var s := UpdateDuck(Duck(400.0, 300.0, 0.0, -10.0, 0.0, 0.0, 2.0, 100.0, 0, 0), Example, true, h);
      !s.party && s.duck.x == 400.0 && s.duck.y == 290.0
  {
  }

  /** A duck 24 below the top edge moving up by 10 crosses it: a party, and it is put back at height 50. */
  lemma ExampleTopEdge(h: Heading)
    ensures var s := UpdateDuck(Duck(400.0, 24.0, 0.0, -10.0, 0.0, 0.0, 2.0, 100.0, 0, 0), Example, true, h);
      s.party && s.duck.x == 400.0 && s.duck.y == 50.0
  {
  }

  /**
   * The new heading is any angle, so it may point back out: a duck bounced
   * off the top edge with the heading straight up sets off a second party on
   * the very next frame, whatever heading that frame draws. The angle of the
   * heading straight up does not matter to the outcome, so it is left free.
   */
  lemma ExampleRepeatedParty(angle: real, h: Heading)
    ensures var up := Heading(angle, 0.0, -1.0);
      var first := UpdateDuck(Duck(400.0, 24.0, 0.0, -10.0, 0.0, 0.0, 2.0, 100.0, 0, 0), Example, true, up);
      first.party && first.duck.y == 50.0 && first.duck.vy == -2.0 &&
      UpdateDuck(first.duck, Example, true, h).party
  {
  }
}

=== FILE: geometry.dfy ===
/** Plane geometry and the p5 numeric helpers the sketch relies on, over exact reals. */
module Geometry {

  /** A canvas-space position. */
  datatype Point = Point(x: real, y: real)

  /** The drawing surface: its current size, and the duck size fixed once when the sketch starts. */
  datatype Canvas = Canvas(width: real, height: real, baseDuckSize: real)

  function Min(a: real, b: real): real { if a <= b then a else b }

  function Max(a: real, b: real): real { if a >= b then a else b }

  /** p5's `constrain(v, lo, hi)`, which is `max(min(v, hi), lo)`: when the bounds cross, `lo` wins. */
  function Clamp(v: real, lo: real, hi: real): (r: real)
    ensures lo <= hi ==> lo <= r <= hi
    ensures lo <= v <= hi ==> r == v
    ensures v < lo ==> r == lo
    ensures lo <= hi < v ==> r == hi
    ensures hi < lo ==> r == lo
  {
    Max(Min(v, hi), lo)
  }

  /** p5's `lerp(start, stop, amt)`: the point a fraction `amt` of the way from `start` to `stop`. */
  function Lerp(start: real, stop: real, amt: real): (r: real)
    ensures stop - r == (1.0 - amt) * (stop - start)
    ensures 0.0 <= amt <= 1.0 ==> Min(start, stop) <= r <= Max(start, stop)
  {
    start + (stop - start) * amt
  }

  function SquaredDistance(p: Point, q: Point): real
  {
    (p.x - q.x) * (p.x - q.x) + (p.y - q.y) * (p.y - q.y)
  }

  /**
   * `dist(p, q) < radius`, decided without a square root. A distance is never
   * negative, so a radius that is not positive admits no point at all.
   */
  predicate Within(p: Point, q: Point, radius: real)
  {
    0.0 < radius && SquaredDistance(p, q) < radius * radius
  }

  /** `Within` agrees with comparing the Euclidean distance `d` itself against the radius. */
  lemma WithinIsDistance(p: Point, q: Point, radius: real, d: real)
    requires 0.0 <= d && d * d == SquaredDistance(p, q)
    ensures Within(p, q, radius) <==> d < radius
  {
    if 0.0 < radius {
      if d < radius {
        calc {
          SquaredDistance(p, q);
        ==
          d * d;
        <= { assert 0.0 <= d; }
          d * radius;
        <
          radius * radius;
        }
      } else {
        assert radius * radius <= radius * d <= d * d;
      }
    }
  }
}

=== FILE: scene.dfy ===
/**
 * The whole sketch as a state machine over one scene: the frame update that
 * moves every duck and ages the confetti, the keyboard commands, and the
 * click hit-test.
 */
module Scene {
  import opened Geometry
  import opened Ducks
  import opened Confetti

  /** The number of hat styles: party, top hat, baseball cap, winter hat. */
  const HatKinds: nat := 4

  /** The number of duck colour schemes. */
  const ColorKinds: nat := 4

  /** The number of terrains: none, plain grass, flowers, muddy puddle, pond. */
  const GrassKinds: nat := 5

  /** Everything the sketch remembers between frames. */
  datatype Scene = Scene(
    ducks: seq<Duck>,
    confetti: seq<Piece>,
    moving: bool,
    hat: nat, color: nat, grass: nat)

  /**
   * The random choices available to one input or one frame: a spawn spot per
   * new duck, a heading per duck, and `piece(b, j)` for piece `j` of the
   * burst numbered `b`.
   */
  datatype Draws = Draws(spot: nat -> Point, heading: nat -> Heading, piece: (nat, nat) -> PieceDraw)

  /** The draws for the pieces of burst `b`. */
  function BurstDraws(draws: Draws, b: nat): nat -> PieceDraw
  {
    (j: nat) => draws.piece(b, j)
  }

  function Centre(c: Canvas): Point
  {
    Point(c.width / 2.0, c.height / 2.0)
  }

  /**
   * The invariant of the sketch: the cosmetic indices are in range, and every
   * duck wears the scene's hat and colour and has the creation speed and size.
   */
  predicate Consistent(s: Scene, c: Canvas)
  {
    s.hat < HatKinds && s.color < ColorKinds && s.grass < GrassKinds &&
    forall d :: d in s.ducks ==>
      d.hat == s.hat && d.color == s.color && d.speed == InitialSpeed && d.size == c.baseDuckSize
  }

  /** The canvas of `setup`: the window, with the duck size an eighth of its width. */
  function SetupCanvas(windowWidth: real, windowHeight: real): (c: Canvas)
    ensures 8.0 * c.baseDuckSize == windowWidth
    ensures c.width == windowWidth && c.height == windowHeight
  {
    Canvas(windowWidth, windowHeight, windowWidth / 8.0)
  }

  /** The scene after `setup`: one duck at rest, no confetti, stopped, default cosmetics. */
  function Initial(c: Canvas, spot: Point): (s: Scene)
    ensures Consistent(s, c)
    ensures s.ducks == [NewDuck(c, spot, 0, 0)] && s.hat == 0 && s.color == 0 && s.grass == 0
    ensures s.confetti == [] && !s.moving
  {
    Scene([NewDuck(c, spot, 0, 0)], [], false, 0, 0, 0)
  }

  /** Started in a window at least a quarter as tall as it is wide, the first duck is on the canvas. */
  lemma InitialDuckInBounds(windowWidth: real, windowHeight: real, spot: Point)
    requires 0.0 <= windowWidth && windowWidth <= 4.0 * windowHeight
    requires SpawnSpot(SetupCanvas(windowWidth, windowHeight), spot)
    ensures var c := SetupCanvas(windowWidth, windowHeight);
      forall d :: d in Initial(c, spot).ducks ==> InBounds(d, c)
  {
  }

  /** The loop of `addDuck` calls for digit keys: `n` new ducks after the existing ones, nothing else changes. */
  function AddDucks(s: Scene, c: Canvas, spot: nat -> Point, n: nat): (t: Scene)
    ensures |t.ducks| == |s.ducks| + n
    ensures t.ducks[..|s.ducks|] == s.ducks
    ensures forall j :: 0 <= j < n ==> t.ducks[|s.ducks| + j] == NewDuck(c, spot(j), s.hat, s.color)
    ensures t.(ducks := s.ducks) == s
    ensures Consistent(s, c) ==> Consistent(t, c)
  {
    var newcomers := seq(n, j requires 0 <= j < n => NewDuck(c, spot(j), s.hat, s.color));
    assert forall j :: 0 <= j < n ==> newcomers[j] == NewDuck(c, spot(j), s.hat, s.color);
    s.(ducks := s.ducks + newcomers)
  }

  /** The space key: exactly one new duck, stopped; the confetti and cosmetics stay. */
  function Reset(s: Scene, c: Canvas, spot: nat -> Point): (t: Scene)
    ensures |t.ducks| == 1 && !t.moving
    ensures t.ducks == [NewDuck(c, spot(0), s.hat, s.color)]
    ensures t.(ducks := s.ducks, moving := s.moving) == s
    ensures Consistent(s, c) ==> Consistent(t, c)
  {
    AddDucks(s.(ducks := []), c, spot, 1).(moving := false)
  }

  /**
   * The enter key: start or stop the flock. Only when it starts does every
   * duck take a fresh heading, duck `i` the heading `heading(i)`.
   */
  function Toggle(s: Scene, heading: nat -> Heading): (t: Scene)
    ensures t.moving == !s.moving
    ensures |t.ducks| == |s.ducks|
    ensures s.moving ==> t.ducks == s.ducks
    ensures !s.moving ==> forall i :: 0 <= i < |s.ducks| ==> t.ducks[i] == NewDirection(s.ducks[i], heading(i))
    ensures t.(ducks := s.ducks, moving := s.moving) == s
    ensures forall c :: Consistent(s, c) ==> Consistent(t, c)
  {
    if s.moving then s.(moving := false)
    else
      var turned := seq(|s.ducks|, i requires 0 <= i < |s.ducks| => NewDirection(s.ducks[i], heading(i)));
      assert forall i :: 0 <= i < |s.ducks| ==> turned[i] == NewDirection(s.ducks[i], heading(i));
      s.(moving := true, ducks := turned)
  }

  /** The next index of a cycle of `n` presets, wrapping to 0 after the last. */
  function Next(i: nat, n: nat): (j: nat)
    requires 0 < n
    ensures j < n
    ensures i + 1 < n ==> j == i + 1
    ensures i + 1 == n ==> j == 0
  {
    (i + 1) % n
  }

  /** The `h` key: the next hat, put on every duck. */
  function CycleHat(s: Scene): (t: Scene)
    ensures t.hat == Next(s.hat, HatKinds)
    ensures |t.ducks| == |s.ducks|
    ensures forall i :: 0 <= i < |s.ducks| ==> t.ducks[i] == s.ducks[i].(hat := t.hat)
    ensures t.(ducks := s.ducks, hat := s.hat) == s
    ensures forall c :: Consistent(s, c) ==> Consistent(t, c)
  {
    var h := Next(s.hat, HatKinds);
    var worn := seq(|s.ducks|, i requires 0 <= i < |s.ducks| => s.ducks[i].(hat := h));
    s.(hat := h, ducks := worn)
  }

  /** The `d` key: the next colour scheme, applied to every duck. */
  function CycleColor(s: Scene): (t: Scene)
    ensures t.color == Next(s.color, ColorKinds)
    ensures |t.ducks| == |s.ducks|
    ensures forall i :: 0 <= i < |s.ducks| ==> t.ducks[i] == s.ducks[i].(color := t.color)
    ensures t.(ducks := s.ducks, color := s.color) == s
    ensures forall c :: Consistent(s, c) ==> Consistent(t, c)
  {
    var k := Next(s.color, ColorKinds);
    var painted := seq(|s.ducks|, i requires 0 <= i < |s.ducks| => s.ducks[i].(color := k));
    s.(color := k, ducks := painted)
  }

  /** The `g` key: the next terrain; ducks and confetti are untouched. */
  function CycleGrass(s: Scene): (t: Scene)
    ensures t.grass == Next(s.grass, GrassKinds)
    ensures t.(grass := s.grass) == s
    ensures forall c :: Consistent(s, c) ==> Consistent(t, c)
  {
    s.(grass := Next(s.grass, GrassKinds))
  }

  /** `triggerParty`: a burst of confetti from the centre of the canvas, after the existing pieces. */
  function Party(s: Scene, c: Canvas, pieces: nat -> PieceDraw): (t: Scene)
    ensures |t.confetti| == |s.confetti| + BurstSize
    ensures t.confetti[..|s.confetti|] == s.confetti
    ensures forall j :: |s.confetti| <= j < |t.confetti| ==>
      t.confetti[j].life == FullLife && t.confetti[j].x == c.width / 2.0 && t.confetti[j].y == c.height / 2.0
    ensures t.(confetti := s.confetti) == s
    ensures Consistent(s, c) ==> Consistent(t, c)
  {
    s.(confetti := s.confetti + Burst(Centre(c), pieces))
  }

  /** A key as p5 reports it: enter, a printable character, or some other named key. */
  datatype Key = Enter | Typed(ch: char) | Special

  predicate IsDigit(ch: char)
  {
    '1' <= ch <= '9'
  }

  /**
   * What a key press leaves behind: the new scene, whether a party sound is
   * requested, and whether the handler claimed the key (returned false to the
   * browser).
   */
  datatype Reaction = Reaction(scene: Scene, party: bool, handled: bool)

  /** `keyPressed`: dispatch one key to its command; keys with no command change nothing. */
  function KeyPressed(s: Scene, c: Canvas, key: Key, draws: Draws): (r: Reaction)
    ensures Consistent(s, c) ==> Consistent(r.scene, c)
    ensures !r.handled ==> r.scene == s && !r.party
    ensures r.party <==> key == Typed('p') || key == Typed('P')
    ensures r.party ==> |r.scene.confetti| == |s.confetti| + BurstSize && r.scene.ducks == s.ducks
    ensures key.Enter? ==> r.scene.moving == !s.moving && |r.scene.ducks| == |s.ducks|
    ensures key == Typed(' ') ==> |r.scene.ducks| == 1 && !r.scene.moving
    ensures r.handled <==>
      key.Enter? || key == Typed(' ') || (key.Typed? && IsDigit(key.ch)) ||
      (key.Typed? && key.ch in {'h', 'H', 'd', 'D', 'g', 'G', 'p', 'P'})
    ensures key.Enter? ==> r.scene == Toggle(s, draws.heading)
    ensures key == Typed(' ') ==> r.scene == Reset(s, c, draws.spot)
    ensures key.Typed? && IsDigit(key.ch) ==>
      r.scene == AddDucks(s, c, draws.spot, (key.ch as int - '0' as int) as nat)
    ensures key == Typed('h') || key == Typed('H') ==> r.scene == CycleHat(s)
    ensures key == Typed('d') || key == Typed('D') ==> r.scene == CycleColor(s)
    ensures key == Typed('g') || key == Typed('G') ==> r.scene == CycleGrass(s)
    ensures r.party ==> r.scene == Party(s, c, BurstDraws(draws, 0))
  {
    if key.Enter? then Reaction(Toggle(s, draws.heading), false, true)
    else if key.Special? then Reaction(s, false, false)
    else if key.ch == ' ' then Reaction(Reset(s, c, draws.spot), false, true)
    else if IsDigit(key.ch) then
      Reaction(AddDucks(s, c, draws.spot, (key.ch as int - '0' as int) as nat), false, true)
    else if key.ch == 'h' || key.ch == 'H' then Reaction(CycleHat(s), false, true)
    else if key.ch == 'd' || key.ch == 'D' then Reaction(CycleColor(s), false, true)
    else if key.ch == 'g' || key.ch == 'G' then Reaction(CycleGrass(s), false, true)
    else if key.ch == 'p' || key.ch == 'P' then
      Reaction(Party(s, c, BurstDraws(draws, 0)), true, true)
    else Reaction(s, false, false)
  }

  /** A digit key `n` adds exactly `n` ducks and leaves the existing ones and the motion state alone. */
  lemma DigitAddsDucks(s: Scene, c: Canvas, ch: char, draws: Draws)
    requires IsDigit(ch)
    ensures var t := KeyPressed(s, c, Typed(ch), draws).scene;
      |t.ducks| == |s.ducks| + (ch as int - '0' as int) &&
      t.ducks[..|s.ducks|] == s.ducks && t.moving == s.moving && t.confetti == s.confetti
  {
  }

  /** `n` presses of the same key, each with the same draws. */
  function Presses(s: Scene, c: Canvas, key: Key, draws: Draws, n: nat): Scene
  {
    if n == 0 then s else KeyPressed(Presses(s, c, key, draws, n - 1), c, key, draws).scene
  }

  /** Four presses of `h` give back the scene they started from. */
  lemma HatCycleReturns(s: Scene, c: Canvas, draws: Draws)
    requires Consistent(s, c)
    ensures Presses(s, c, Typed('h'), draws, HatKinds) == s
  {
    var s1 := CycleHat(s);
    var s2 := CycleHat(s1);
    var s3 := CycleHat(s2);
    var s4 := CycleHat(s3);
    assert Presses(s, c, Typed('h'), draws, 1) == s1;
    assert Presses(s, c, Typed('h'), draws, 2) == s2;
    assert Presses(s, c, Typed('h'), draws, 3) == s3;
    assert Presses(s, c, Typed('h'), draws, 4) == s4;
    forall i | 0 <= i < |s.ducks|
      ensures s4.ducks[i] == s.ducks[i]
    {
      assert s.ducks[i] in s.ducks;
    }
  }

  /** Four presses of `d` give back the scene they started from. */
  lemma ColorCycleReturns(s: Scene, c: Canvas, draws: Draws)
    requires Consistent(s, c)
    ensures Presses(s, c, Typed('d'), draws, ColorKinds) == s
  {
    var s1 := CycleColor(s);
    var s2 := CycleColor(s1);
    var s3 := CycleColor(s2);
    var s4 := CycleColor(s3);
    assert Presses(s, c, Typed('d'), draws, 1) == s1;
    assert Presses(s, c, Typed('d'), draws, 2) == s2;
    assert Presses(s, c, Typed('d'), draws, 3) == s3;
    assert Presses(s, c, Typed('d'), draws, 4) == s4;
    forall i | 0 <= i < |s.ducks|
      ensures s4.ducks[i] == s.ducks[i]
    {
      assert s.ducks[i] in s.ducks;
    }
  }

  /** Five presses of `g` give back the scene they started from. */
  lemma GrassCycleReturns(s: Scene, c: Canvas, draws: Draws)
    requires s.grass < GrassKinds
    ensures Presses(s, c, Typed('g'), draws, GrassKinds) == s
  {
    var s1 := CycleGrass(s);
    var s2 := CycleGrass(s1);
    var s3 := CycleGrass(s2);
    var s4 := CycleGrass(s3);
    assert Presses(s, c, Typed('g'), draws, 1) == s1;
    assert Presses(s, c, Typed('g'), draws, 2) == s2;
    assert Presses(s, c, Typed('g'), draws, 3) == s3;
    assert Presses(s, c, Typed('g'), draws, 4) == s4;
  }

  /** The confetti the ducks' parties spawn during one frame, in duck order, and how many parties there were. */
  datatype Parties = Parties(spawned: seq<Piece>, count: nat)

  /** Every piece is new: it has full life and sits at `at`. */
  predicate FreshAt(ps: seq<Piece>, at: Point)
  {
    forall k :: 0 <= k < |ps| ==> ps[k].life == FullLife && ps[k].x == at.x && ps[k].y == at.y
  }

  /** Pieces that are all new at one point stay so when put together. */
  lemma FreshAtAppend(a: seq<Piece>, b: seq<Piece>, at: Point)
    requires FreshAt(a, at) && FreshAt(b, at)
    ensures FreshAt(a + b, at)
  {
    forall k | 0 <= k < |a + b|
      ensures (a + b)[k].life == FullLife && (a + b)[k].x == at.x && (a + b)[k].y == at.y
    {
      if k >= |a| {
        assert (a + b)[k] == b[k - |a|];
      }
    }
  }

  /**
   * The parties of the duck loop of `draw`, from the duck numbered `first` on:
   * duck `first + i` uses heading `first + i` and, if it hits an edge, burst
   * `first + i`.
   */
  function PartyBursts(ducks: seq<Duck>, c: Canvas, moving: bool, draws: Draws, first: nat): (p: Parties)
    ensures |p.spawned| == BurstSize * p.count
    ensures p.count <= |ducks|
    ensures FreshAt(p.spawned, Centre(c))
    ensures !moving ==> p.count == 0
    decreases |ducks|
  {
    if ducks == [] then Parties([], 0)
    else
      var hit := UpdateDuck(ducks[0], c, moving, draws.heading(first)).party;
      var rest := PartyBursts(ducks[1..], c, moving, draws, first + 1);
      if hit then
        var burst := Burst(Centre(c), BurstDraws(draws, first));
        FreshAtAppend(burst, rest.spawned, Centre(c));
        Parties(burst + rest.spawned, rest.count + 1)
      else rest
  }

  /** Duck number `i`, the `i - first`-th of `ducks`, crosses an edge in this frame. */
  predicate PartyAt(ducks: seq<Duck>, c: Canvas, moving: bool, first: nat, i: nat)
    requires first <= i < first + |ducks|
  {
    Crosses(ducks[i - first], c, moving)
  }

  /**
   * The numbers of the ducks among `ducks` that cross an edge, counting the
   * first of them as duck `first`.
   */
  function PartyIndices(ducks: seq<Duck>, c: Canvas, moving: bool, first: nat): set<nat>
  {
    set i: nat | first <= i < first + |ducks| && PartyAt(ducks, c, moving, first, i)
  }

  /** Dropping the first duck renumbers nothing: every later duck keeps its number. */
  lemma PartyIndicesTail(ducks: seq<Duck>, c: Canvas, moving: bool, first: nat)
    requires ducks != []
    ensures PartyIndices(ducks, c, moving, first) ==
      (if Crosses(ducks[0], c, moving) then {first} else {}) + PartyIndices(ducks[1..], c, moving, first + 1)
  {
    forall i: nat | first + 1 <= i < first + |ducks|
      ensures PartyAt(ducks[1..], c, moving, first + 1, i) == PartyAt(ducks, c, moving, first, i)
    {
      assert ducks[1..][i - (first + 1)] == ducks[i - first];
    }
  }

  /** There is one party, and so one burst and one sound, for each duck whose step crosses an edge. */
  lemma {:induction false} PartyBurstsCount(ducks: seq<Duck>, c: Canvas, moving: bool, draws: Draws, first: nat)
    ensures PartyBursts(ducks, c, moving, draws, first).count == |PartyIndices(ducks, c, moving, first)|
    decreases |ducks|
  {
    if ducks == [] {
      assert PartyIndices(ducks, c, moving, first) == {};
    } else {
      PartyBurstsCount(ducks[1..], c, moving, draws, first + 1);
      PartyIndicesTail(ducks, c, moving, first);
      var rest := PartyIndices(ducks[1..], c, moving, first + 1);
      assert first !in rest;
    }
  }

  /** A frame has no party exactly when no duck's step crosses an edge. */
  lemma NoPartyIffNoCrossing(ducks: seq<Duck>, c: Canvas, moving: bool, draws: Draws, first: nat)
    ensures PartyBursts(ducks, c, moving, draws, first).count == 0 <==>
      forall i :: 0 <= i < |ducks| ==> !Crosses(ducks[i], c, moving)
  {
    PartyBurstsCount(ducks, c, moving, draws, first);
    var hits := PartyIndices(ducks, c, moving, first);
    if forall i :: 0 <= i < |ducks| ==> !Crosses(ducks[i], c, moving) {
      forall k: nat | first <= k < first + |ducks|
        ensures !PartyAt(ducks, c, moving, first, k)
      {
        assert !Crosses(ducks[k - first], c, moving);
      }
      assert hits == {};
    } else {
      var i :| 0 <= i < |ducks| && Crosses(ducks[i], c, moving);
      assert first + i in hits;
    }
  }

  /** What one frame leaves behind: the new scene, and how many party sounds it requested. */
  datatype Frame = Frame(scene: Scene, parties: nat)

  /** The duck loop of `draw` without its parties: duck `i` takes its step with heading `i`. */
  function StepDucks(ducks: seq<Duck>, c: Canvas, moving: bool, draws: Draws): (ds: seq<Duck>)
    ensures |ds| == |ducks|
    ensures forall i :: 0 <= i < |ducks| ==> ds[i] == UpdateDuck(ducks[i], c, moving, draws.heading(i)).duck
    ensures !moving ==> ds == ducks
    ensures moving && (forall d :: d in ducks ==> d.size <= c.width && d.size <= c.height) ==>
      forall d :: d in ds ==> InBounds(d, c)
  {
    seq(|ducks|, i requires 0 <= i < |ducks| => UpdateDuck(ducks[i], c, moving, draws.heading(i)).duck)
  }

  /**
   * One call of `draw`, without the drawing: every duck takes its step in list
   * order, each party appending its burst, and then the confetti loop ages
   * every piece, new ones included, and removes the dead.
   */
  function Tock(s: Scene, c: Canvas, draws: Draws): (r: Frame)
    ensures |r.scene.ducks| == |s.ducks|
    ensures r.scene.(ducks := s.ducks, confetti := s.confetti) == s
    ensures !s.moving ==> r.scene.ducks == s.ducks && r.parties == 0
    ensures s.moving && (forall d :: d in s.ducks ==> d.size <= c.width && d.size <= c.height) ==>
      forall d :: d in r.scene.ducks ==> InBounds(d, c)
    ensures forall i :: 0 <= i < |s.ducks| ==>
      r.scene.ducks[i] == UpdateDuck(s.ducks[i], c, s.moving, draws.heading(i)).duck
    ensures r.scene.confetti ==
      Survivors(s.confetti, c.height) + Survivors(PartyBursts(s.ducks, c, s.moving, draws, 0).spawned, c.height)
    ensures r.parties == PartyBursts(s.ducks, c, s.moving, draws, 0).count
    ensures |r.scene.confetti| <= |s.confetti| + BurstSize * r.parties
  {
    var stepped := StepDucks(s.ducks, c, s.moving, draws);
    var p := PartyBursts(s.ducks, c, s.moving, draws, 0);
    SurvivorsAppend(s.confetti, p.spawned, c.height);
    Frame(s.(ducks := stepped, confetti := Survivors(s.confetti + p.spawned, c.height)), p.count)
  }

  /** A frame requests one party sound for each duck whose step crosses an edge, and no more. */
  lemma TockPartyCount(s: Scene, c: Canvas, draws: Draws)
    ensures Tock(s, c, draws).parties == |PartyIndices(s.ducks, c, s.moving, 0)|
  {
    PartyBurstsCount(s.ducks, c, s.moving, draws, 0);
  }

  /** A frame keeps the scene consistent. */
  lemma TockPreservesConsistent(s: Scene, c: Canvas, draws: Draws)
    requires Consistent(s, c)
    ensures Consistent(Tock(s, c, draws).scene, c)
  {
    var t := Tock(s, c, draws).scene;
    forall d | d in t.ducks
      ensures d.hat == t.hat && d.color == t.color && d.speed == InitialSpeed && d.size == c.baseDuckSize
    {
      var i :| 0 <= i < |t.ducks| && t.ducks[i] == d;
      assert s.ducks[i] in s.ducks;
    }
  }

  /** The duck under the pointer: the click lands within half its size of its centre. */
  predicate Hits(d: Duck, at: Point)
  {
    Within(at, Point(d.x, d.y), Radius(d))
  }

  /**
   * `mousePressed`: the first duck in list order under the pointer quacks,
   * and no later duck is looked at. `quacked` says whether any duck was hit,
   * and `index` which one.
   */
  method Click(ducks: seq<Duck>, at: Point) returns (quacked: bool, index: nat)
    ensures quacked ==>
      index < |ducks| && Hits(ducks[index], at) && forall j :: 0 <= j < index ==> !Hits(ducks[j], at)
    ensures !quacked <==> forall j :: 0 <= j < |ducks| ==> !Hits(ducks[j], at)
  {
    quacked, index := false, 0;
    while index < |ducks|
      invariant 0 <= index <= |ducks|
      invariant forall j :: 0 <= j < index ==> !Hits(ducks[j], at)
    {
      if Hits(ducks[index], at) {
        quacked := true;
        return;
      }
      index := index + 1;
    }
  }
}
